=== FILE: README.md ===
# MagicDB model core in Dafny

This project models the metadata and lifecycle logic of MagicDB's `MagicModel`, an object-document mapper that binds pydantic models to Firestore, together with the timestamp policy of its `DateModel` subclass. The model covers:

- **Paths** (`paths.dfy`). Document keys are `/`-joined reference paths. The id is the text after the key's last `/`.
- **Metadata** (`metadata.dfy`). Each record carries `{id, key, parent, ref}`. `make_db_fields` derives the rest from the key if one is present, else from the ref, else from the id and parent. Each setter re-runs exactly one branch.
- **Construction** (`construction.dfy`). `forgiveness` defaults to `from_db`. The snapshot (`kwargs_from_db`) is taken only for records read from the store. Forgiving construction flips pydantic's `required` flags and flips them back.
- **Save and update** (`lifecycle.dfy`). These cover:
  - re-validation;
  - the direct or batched `set`/`update` call;
  - snapshot handling;
  - the choice between the full dict and the differ's patch;
  - classification of store failures: "no document to update" either falls back to `save` or raises `DatabaseError`, and anything else is swallowed.
- **DateModel** (`stamps.dfy`, `datemodel.dfy`). `created_at` is written once and `last_updated` is re-stamped on every save and update. `update`'s create fallback dispatches to `DateModel.save`.
- **Subclass discovery** (`registry.dfy`). This is a transitive closure over a finite subclass graph.

Everything is a pure function over immutable values. An operation returns a `Step`, which holds three things:

- the record as the operation leaves it, including when it raises, because the source's assignments before an exception stay;
- the store calls it issued;
- how it ended: `ReturnedSelf`, `ReturnedNone` or `Raised(error)`.

Some parts are inputs instead of being modelled:

- The Firestore store is an input: `Store(onSet, onUpdate)` says how the store answers each kind of call.
- The clock `datetime.utcnow()` is an integer `now`.
- The store's auto-generated document id is a string argument.
- pydantic validation (`Validator`) and the update differ `make_update_obj` (`Differ`) are function values supplied by the caller. Their code is not part of this model.

A reference is its path, `seq<string>`. The model treats the store's path operations as follows:

- `document(key)` splits the key on `/`.
- `collection(c).document(i)` extends a path by `[c, i]`.

Points of the code's behaviour that are easy to misread:

- A successful `update` does not refresh the snapshot. Only a non-merging `save` does, including the one `update` falls back to.
- `update` swallows every failure other than "no document to update" and returns `None`. Because the `AttributeError` raised on a record with no ref is inside the `try`, that is swallowed too.
- `DatabaseError`'s message is wrapped twice: `DatabaseError(db_error.message)` passes a message where a key is expected. It still contains the key.
- Construction with default arguments is strict: `forgiveness` defaults to `from_db`, which is false. So `Manager(name="Michael Scott")` on a class that also requires `age` fails, although src/tests/all/from_readme.py:29 shows it succeeding and the field being set later. The model follows the code (`Construction.PartialManagerRejectedByDefault`). Nothing was executed to confirm which one the library intends.
- `DateModel.save` reads `created_at` before assigning anything. On a record whose `created_at` was removed with `del`, it raises `AttributeError` with no store call. An `update` falling back to it raises the same way, keeping the caller's `last_updated`.
- `id_from_key` raises on a key without `/`. So `id_from_key(key_from_ref(r))` is the last segment only for paths of two or more segments.

## Model

| member | source | states |
|---|---|---|
| Text.Lower | src/magicdb/Models/MagicModel.py:111 | `lower()` keeps the length, leaves no upper-case letter, and changes only upper-case letters, each to its lower-case partner |
| Text.LowerIdempotent | src/magicdb/Models/MagicModel.py:111 | lowering an already lowered name changes nothing |
| Paths.KeyFromRef | src/magicdb/Models/MagicModel.py:119-121 | the key of a path with two or more segments contains `/`; the key of a one-segment path of clean segments does not |
| Paths.Split | src/magicdb/Models/MagicModel.py:90 | splitting a key gives at least one segment, none containing `/` |
| Paths.LastSep | src/magicdb/Models/MagicModel.py:125 | `rindex('/')` finds the last separator, or fails exactly when the key has none |
| Paths.IdFromKey | src/magicdb/Models/MagicModel.py:123-125 | the id exists iff the key contains `/`. When it exists it is the key's suffix after a `/` and holds no `/`, i.e. the text after the last separator |
| Paths.JoinSplit | src/magicdb/Models/MagicModel.py:89-95 | for every key, joining the split key gives the key back |
| Paths.SplitJoin | src/magicdb/Models/MagicModel.py:93-95 | splitting the key of a non-empty path of `/`-free segments gives the path back |
| Paths.IdOfKeyFromRef | src/magicdb/Models/MagicModel.py:119-125 | `id_from_key(key_from_ref(r))` is the last segment for a path of two or more segments |
| Paths.IdOfSingleSegment | src/magicdb/Models/MagicModel.py:124-125 | on a one-segment path, `id_from_key(key_from_ref(r))` raises |
| Paths.IdIsLastSegment | src/magicdb/Models/MagicModel.py:89-91 | the id of a key with `/` is the last segment of the document path the key names |
| Metadata.CollectionName | src/magicdb/Models/MagicModel.py:109-115 | the collection is the `Meta.collection_name` override, else the class name lower-cased: same length, no upper case, same case-folding |
| Metadata.CollectionNameExamples | src/tests/all/from_readme.py:22-61 | `Manager` is stored in "manager", and `Student` with its override in "students" |
| Metadata.FromKey | src/magicdb/Models/MagicModel.py:89-91 | the key branch keeps key and parent and sets ref to the split key. It succeeds iff the key contains `/`, then leaving id, key and ref mutually consistent. A `None` key raises with nothing changed. On failure the old id stays |
| Metadata.FromRef | src/magicdb/Models/MagicModel.py:93-95 | the ref branch keeps ref and parent and sets key to the joined ref. For clean segments it succeeds iff the path has two or more segments, then leaving the metadata consistent. A `None` ref raises |
| Metadata.FromId | src/magicdb/Models/MagicModel.py:97-105 | the id branch raises iff a parent is set whose ref is `None`, and then assigns nothing. Otherwise its ref is scope ++ [collection, id]: scope is the parent's ref or the root, and id is the supplied one or the auto id. A supplied `/`-free id is preserved |
| Metadata.KeyWins | src/magicdb/Models/MagicModel.py:79-87 | with a non-empty key, the outcome, key and ref do not depend on the accompanying ref, id, parent or collection, and neither does a successful id. The ref is the split key and the id the key's last segment |
| Metadata.RefWinsOverId | src/magicdb/Models/MagicModel.py:79-87 | without a key, a present ref decides the outcome, key, ref and id regardless of id and parent |
| Metadata.IdBranchScopesUnderParent | src/magicdb/Models/MagicModel.py:97-105 | with neither key nor ref, the document is placed under the parent's ref, or at the root when there is no parent; a parent whose ref is `None` makes the derivation raise |
| Metadata.RederiveWellFormed | src/magicdb/Models/MagicModel.py:79-91 | re-deriving consistent metadata changes nothing |
| Metadata.KeyAndRefSettersAgree | src/magicdb/Models/MagicModel.py:159-180 | setting the key of a clean path and setting the path as ref give identical metadata and outcome, including the failure on a one-segment path |
| Metadata.SetIdIgnoresKeyAndRef | src/magicdb/Models/MagicModel.py:150-153 | the id setter's outcome does not depend on the previous key or ref, nor does its metadata when it succeeds; when it raises, the previous key and ref stay |
| Metadata.SetParentRescopes | src/magicdb/Models/MagicModel.py:168-171 | the parent setter raises iff the new parent has no ref; otherwise it keeps a present id and moves the ref under the new parent, or to the root when the parent is cleared |
| Metadata.SetKeyRunsKeyBranch | src/magicdb/Models/MagicModel.py:159-162 | the key setter runs the key branch, agreeing with `make_db_fields` for a non-empty key, and raising for an empty or `None` key |
| Metadata.SetRefRunsRefBranch | src/magicdb/Models/MagicModel.py:177-180 | the ref setter runs the ref branch even when a key is present, agreeing with `make_db_fields` when no key is present |
| Construction.Relax | src/magicdb/Models/MagicModel.py:57-60 | relaxation keeps every field name and leaves a field required iff it was required and is present in kwargs |
| Construction.Restore | src/magicdb/Models/MagicModel.py:64-65 | restoring marks exactly the recorded fields required and touches nothing else |
| Construction.RestoreUndoesRelax | src/magicdb/Models/MagicModel.py:54-65 | restoring the flipped fields gives back the original declarations exactly |
| Construction.AddInitForgiveness | src/magicdb/Models/MagicModel.py:54-65 | validation runs on the relaxed fields. On success the class is unchanged. On failure the class keeps the relaxed flags |
| Construction.New | src/magicdb/Models/MagicModel.py:39-52 | a successful construction leaves the class unchanged, has a ref, and holds the validated fields (relaxed validation when forgiving) with the snapshot = kwargs iff `from_db`. It succeeds whenever the metadata derives and the (relaxed, when forgiving) validation passes; every other failure is the derivation error or `ValidationError`. Strict or derivation failures leave the class alone; a forgiving validation failure leaves it relaxed |
| Construction.AddInitForgivenessRestoring | src/magicdb/Models/MagicModel.py:54-65 | with the restoring loop in a `finally`, validation still sees the relaxed flags and the class comes back unchanged on success and on failure |
| Construction.NewRestoring | src/magicdb/Models/MagicModel.py:39-65 | construction over the restoring `add_init_forgiveness` never changes the class, and yields the same record or error as the construction as written |
| Construction.PartialManagerRejectedByDefault | src/magicdb/Models/MagicModel.py:39-44 | with default arguments, a `Manager` given only `name` is rejected with `ValidationError`, unlike the usage shown at src/tests/all/from_readme.py:29 |
| Construction.ForgivenessDefaultsToFromDb | src/magicdb/Models/MagicModel.py:40-41 | omitting `forgiveness` is the same as passing `from_db` |
| Construction.NewDerivesMetadata | src/magicdb/Models/MagicModel.py:46-52 | the record's metadata is the derivation from kwargs, and a derivation error makes construction raise it |
| Construction.FailedForgivingConstructionLeaksRelaxation | src/magicdb/Models/MagicModel.py:54-65 | after a failed forgiving construction, a strict construction missing a required field is accepted, whereas the untouched class rejects it |
| Construction.RestoringConstructionKeepsFlags | src/magicdb/Models/MagicModel.py:54-65 | with flags restored on failure, the same later construction is rejected |
| Stamps.StampSave | src/magicdb/Models/DateModel.py:9-11 | `last_updated` gets the supplied value or `now`. `created_at` keeps a set value, else gets the supplied value or `now`. Both end set, and no other field changes. It needs a `created_at` entry, since the test of `created_at` reads it |
| Stamps.StampUpdate | src/magicdb/Models/DateModel.py:14-15 | `last_updated` gets the supplied value or `now`; every other field, `created_at` included, is unchanged |
| Lifecycle.RevalidateKeeps | src/magicdb/Models/MagicModel.py:67-72 | the two-pass re-validation keeps a field the validator keeps, also when a pass raises |
| Lifecycle.MissingDocumentError | src/magicdb/Models/MagicModel.py:13-17 | the raised `DatabaseError`'s message contains the record's key |
| Lifecycle.Save | src/magicdb/Models/MagicModel.py:184-191 | save issues one `set` (direct or batched, never both) iff validation passes and a ref exists. It returns self iff the store accepts, and never returns None. A non-merge success makes the written dict the snapshot; otherwise the snapshot is unchanged. A store error propagates |
| Lifecycle.DateSave | src/magicdb/Models/DateModel.py:9-12 | on a record whose `created_at` was deleted, `DateModel.save` raises `AttributeError` with nothing changed or sent. Otherwise it re-stamps `last_updated` and stamps `created_at` only if unset; a set `created_at` is never overwritten. It passes `MagicModel.save`'s result through: one `set` of the stamped, re-validated fields at the ref iff they validate and a ref exists, self iff the store accepts, a store error raised, never None; the snapshot changes only on a non-merge success, to what was written |
| Lifecycle.Update | src/magicdb/Models/MagicModel.py:193-209 | update sends one partial update iff validation passes and a ref exists. The payload is the full dict when the snapshot is empty, else the diff. Without fallback the snapshot is not refreshed; with it, the rest is the class's `save(batch=batch)` |
| Lifecycle.UpdateOutcomes | src/magicdb/Models/MagicModel.py:200-209 | validation failure raises; a missing ref or an unrecognised failure returns None; acceptance returns self; "no document to update" without `create` raises `DatabaseError` naming the key |
| Lifecycle.DatabaseErrorOnlyForMissingDocument | src/magicdb/Models/MagicModel.py:203-209 | update raises `DatabaseError` iff the store reports the document missing and `create` is false |
| Lifecycle.DateUpdate | src/magicdb/Models/DateModel.py:14-16 | `DateModel.update` never changes a set `created_at`, and without the save fallback leaves an unset one as it was. It leaves `last_updated` = supplied value or `now`, or `now` when it falls back to a save that re-stamps. A fallback whose record has no `created_at` raises `AttributeError` after the one update call. The first call is the partial update of the stamped fields at the ref, sent iff they validate and a ref exists; without the fallback there is no second call and the snapshot is unchanged |
| Lifecycle.DateUpdateOutcomes | src/magicdb/Models/DateModel.py:14-16 | `DateModel.update` returns what `MagicModel.update` returns on the stamped record: validation error raised, missing ref or unrecognised failure None, acceptance self, missing document without `create` a `DatabaseError`, and on fallback the outcome of `DateModel.save` |
| DateModel.CreatedAtNeverOverwritten | src/magicdb/Models/DateModel.py:9-16 | once set to a datetime, `created_at` survives any sequence of saves and updates |
| DateModel.UpdatesKeepCreatedAt | src/magicdb/Models/DateModel.py:14-16 | updates that cannot fall back leave a `created_at` entry, a datetime or `None`, as it was |
| DateModel.SaveStampsCreatedAt | src/magicdb/Models/DateModel.py:10 | a save on a record whose `created_at` entry is falsy leaves it at the supplied value or the clock |
| DateModel.CreatedAtWriteOnce | src/magicdb/Models/DateModel.py:9-16 | on an unset record, after any updates without `create`, the first save's stamp is the value `created_at` keeps for the whole history |
| DateModel.LastUpdatedRestamped | src/magicdb/Models/DateModel.py:9-16 | a save with a `created_at` entry, and an update that does not fall back to a re-stamping save, leave `last_updated` at that call's supplied value or clock. An update that falls back to a re-stamping save leaves it at the clock. A save on a record without `created_at` changes nothing |
| DateModel.DateSaveWritesStamps | src/magicdb/Models/DateModel.py:9-12 | a successful `DateModel.save` writes the new `last_updated`, a set `created_at` unchanged or an unset one stamped, and, without merge, snapshots `last_updated` |
| DateModel.DateUpdateSendsStamp | src/magicdb/Models/DateModel.py:16 | with an empty snapshot, the update payload carries the stamped `last_updated` |
| DateModel.UpdateFallbackRestamps | src/magicdb/Models/MagicModel.py:204-206 | the create fallback reaches `DateModel.save` with no timestamps; when that save gets past reading `created_at`, `last_updated` becomes `now`, discarding the caller's value, and an unset `created_at` becomes `now`. A successful fallback writes and snapshots them |
| Registry.GetSubclasses | src/magicdb/Models/MagicModel.py:225-231 | the result contains the direct subclasses, is closed under subclassing, and lies inside every such closed set: exactly the transitive subclasses |
| Registry.GetAllSubclassesOfModel | src/magicdb/Models/MagicModel.py:233-239 | the same closure taken from `MagicModel` |

## Left out

- `delete` is a pass-through to the store with nothing to state.
- The query entry points `collection`, `collection_group`, `get_collection` and `get_subcollections` build queries in `magicdb.Queries`, which is not part of this model, and make network calls.
- `__eq__` compares pydantic state only and is not modelled.
- The per-instance side table `db_fields` keys off Python object identity and mutates the class's `Meta`. The model keeps the metadata as a plain field of the record instead.
- `Meta` inheritance is not modelled. `collectionOverride` is the `collection_name` that attribute lookup resolves to on the class.
- pydantic validation and serialization are foreign code, so they are the `Validator` parameter. `self.dict()` is the record's field map.
- `make_update_obj` (`magicdb.utils`) is not part of this model. It is the uninterpreted `Differ` parameter, so no dot-path or deletion semantics are stated.
- The Firestore client is external I/O. Batch commit and atomicity are not modelled, and neither are auto-id generation (an input), stripping a database prefix from keys, re-splitting ids that contain `/`, or rejecting odd-length document paths.
- `src/magicdb/database/Database.py` (credentials and connection bootstrap) is pure I/O.
- Arguments passed positionally to the `DateModel` overrides are not modelled; all arguments are taken by keyword.
- A metadata keyword argument of the wrong type, such as an integer `id`, is read as absent.
- A parent record is represented by its ref as it is when the derivation runs. Later changes to the parent's ref are not followed.
- Text.Lower: lowers ASCII letters only, because Python's Unicode case mapping is not modelled.
- The timestamp properties assume `Keeps`: validation hands back a `datetime` field's value unchanged when it is a datetime or `None`. pydantic is not modelled. The assumption says nothing about other values, which pydantic may coerce, such as an integer read as a Unix time. So a `created_at` held as a non-datetime value is outside these properties.
- Lifecycle.DateSave: its timestamp clauses assume `Keeps` for the timestamp they state, and a set `created_at` must be a datetime.
- Lifecycle.DateUpdate: the same assumption as `DateSave`; the unset `created_at` clause needs a datetime or `None` entry.
- DateModel.CreatedAtNeverOverwritten: assumes `Keeps` for `created_at`, and that `created_at` holds a datetime.
- DateModel.UpdatesKeepCreatedAt: assumes `Keeps` for `created_at` and a `created_at` entry that is a datetime or `None`.
- DateModel.SaveStampsCreatedAt: assumes `Keeps` for `created_at`.
- DateModel.CreatedAtWriteOnce: assumes `Keeps` for `created_at`. The updates before the first save are taken without `create`, because one that falls back is itself a `DateModel.save`. The record must hold a `created_at` entry, since the save raises on a deleted one. When there are leading updates, that entry is a datetime or `None`, and pydantic gives an unset field `None`.
- DateModel.LastUpdatedRestamped: assumes `Keeps` for `last_updated`.
- DateModel.DateSaveWritesStamps: assumes `Keeps` for both timestamps; a set `created_at` is stated only when it is a datetime.
- DateModel.DateUpdateSendsStamp: assumes `Keeps` for `last_updated`.
- DateModel.UpdateFallbackRestamps: assumes `Keeps` for both timestamps; `created_at` is stated only for a datetime or a `None` entry.
- `utcnow()` is one reading `now` per operation, whereas the source reads the clock separately for `created_at` and `last_updated`.

## Findings

| source | as written | input that shows it | evidently intended | confidence | as-written member | corrected member |
|---|---|---|---|---|---|---|
| src/magicdb/Models/MagicModel.py:54-65 | `required` flags are restored only after a successful `BaseModel.__init__`, with no `finally` | `Manager(name: str, age: int)`: `Manager(age="forty", forgiveness=True)` raises, leaving `name` optional on the class, and then `Manager(age=45)` is accepted without `name` | restore the flags on every path so the class's requiredness is intact for later constructions | medium, not executed | Construction.New, Construction.FailedForgivingConstructionLeaksRelaxation | Construction.NewRestoring, Construction.RestoringConstructionKeepsFlags |

=== FILE: construction.dfy ===
/** Construction of a model instance (`MagicModel.__init__`, `set_db_fields`
    and `add_init_forgiveness`). Forgiving construction flips the `required`
    flag of every required field missing from the keyword bag, validates,
    and flips them back; the flags live on the class, so the class with its
    flags as construction leaves them is part of the result. */
module Construction {
  import opened Wrappers
  import opened Paths
  import opened Metadata
  import opened Records

  datatype Built = Built(cls: ModelClass, result: Result<Record, Error>)

  /** `kwargs.get(name)` for a string-valued metadata argument. */
  function StrArg(kw: Kwargs, name: string): Option<string> {
    if name in kw && kw[name].VStr? then Some(kw[name].s) else None
  }

  /** `kwargs.get('ref')`. */
  function RefArg(kw: Kwargs): Option<Path> {
    if "ref" in kw && kw["ref"].VRef? then Some(kw["ref"].path) else None
  }

  /** `kwargs.get('parent')`, a record given by its ref. */
  function ParentArg(kw: Kwargs): Option<Parent> {
    if "parent" in kw && kw["parent"].VModel? then Some(Parent(kw["parent"].ref)) else None
  }

  /** The metadata `set_db_fields` seeds from the keyword bag. */
  function MetaArgs(kw: Kwargs): Meta {
    Meta(StrArg(kw, "id"), StrArg(kw, "key"), ParentArg(kw), RefArg(kw))
  }

  /** Field `f` is one the forgiving constructor relaxes. */
  predicate Relaxable(f: FieldDecl, kw: Kwargs) {
    f.required && f.name !in kw
  }

  /** The first loop of `add_init_forgiveness`: every field that is
      required and missing from `kw` becomes optional; nothing else moves. */
  function Relax(s: Schema, kw: Kwargs): (t: Schema)
    ensures |t| == |s|
    ensures forall i :: 0 <= i < |s| ==> t[i].name == s[i].name
    ensures forall i :: 0 <= i < |s| ==> (t[i].required <==> s[i].required && s[i].name in kw)
  {
    if |s| == 0 then []
    else
      var f := if Relaxable(s[0], kw) then s[0].(required := false) else s[0];
      var rest := Relax(s[1..], kw);
      assert forall i :: 1 <= i < |s| ==> ([f] + rest)[i] == rest[i - 1] && s[1..][i - 1] == s[i];
      [f] + rest
  }

  /** `model_fields_changed`: the positions of the fields `Relax` flipped. */
  function Flipped(s: Schema, kw: Kwargs): set<nat> {
    set i: nat | i < |s| && Relaxable(s[i], kw)
  }

  /** The second loop of `add_init_forgiveness`: mark the given fields
      required again. */
  function Restore(t: Schema, changed: set<nat>): (u: Schema)
    ensures |u| == |t|
    ensures forall i :: 0 <= i < |t| ==> u[i].name == t[i].name
    ensures forall i :: 0 <= i < |t| ==> (u[i].required <==> t[i].required || i in changed)
  {
    seq(|t|, i requires 0 <= i < |t| => if i in changed then t[i].(required := true) else t[i])
  }

  /** Restoring the flipped fields undoes the relaxation exactly. */
  lemma RestoreUndoesRelax(s: Schema, kw: Kwargs)
    ensures Restore(Relax(s, kw), Flipped(s, kw)) == s
  {
    var u := Restore(Relax(s, kw), Flipped(s, kw));
    assert forall i :: 0 <= i < |s| ==> u[i] == s[i];
  }

  /** `add_init_forgiveness`: relax, validate, restore. When validation
      raises, the restoring loop is never reached and the class keeps the
      relaxed flags. */
  function AddInitForgiveness(cls: ModelClass, validate: Validator, kw: Kwargs): (r: (ModelClass, Option<Kwargs>))
    ensures r.1 == validate(Relax(cls.schema, kw), kw)
    ensures r.1.Some? ==> r.0 == cls
    ensures r.1.None? ==> r.0 == cls.(schema := Relax(cls.schema, kw))
  {
    var relaxed := Relax(cls.schema, kw);
    match validate(relaxed, kw)
    case None => (cls.(schema := relaxed), None)
    case Some(values) =>
      RestoreUndoesRelax(cls.schema, kw);
      (cls.(schema := Restore(relaxed, Flipped(cls.schema, kw))), Some(values))
  }

  /** `MagicModel.__init__`: `forgiveness` defaults to `from_db`; the
      metadata is derived first (its failure stops construction before any
      validation); the snapshot is the keyword bag only for a record read
      from the store; then pydantic validates, forgivingly or strictly. */
  function New(cls: ModelClass, validate: Validator, kw: Kwargs, fromDb: bool,
               forgiveness: Option<bool>, autoId: string): (b: Built)
    ensures b.result.Success? ==> b.cls == cls
    ensures b.result.Success? ==> b.result.value.snapshot == (if fromDb then kw else map[])
    ensures b.result.Success? ==> b.result.value.meta.ref.Some?
    ensures b.result.Success? && !forgiveness.GetOr(fromDb) ==> validate(cls.schema, kw) == Some(b.result.value.fields)
    ensures b.result.Success? && forgiveness.GetOr(fromDb) ==> validate(Relax(cls.schema, kw), kw) == Some(b.result.value.fields)
    ensures b.result.Failure? && b.result.error == ValidationError && forgiveness.GetOr(fromDb)
            ==> b.cls == cls.(schema := Relax(cls.schema, kw))
    ensures b.result.Failure? && b.result.error.DeriveFailed? ==> b.cls == cls
    ensures !forgiveness.GetOr(fromDb) ==> b.cls == cls
    ensures (&& MakeDbFields(MetaArgs(kw), cls.Collection(), autoId).error.None?
             && (if forgiveness.GetOr(fromDb) then validate(Relax(cls.schema, kw), kw) else validate(cls.schema, kw)).Some?)
            ==> b.result.Success?
    ensures b.result.Failure? && !b.result.error.DeriveFailed? ==> b.result.error == ValidationError
  {
    var forgive := forgiveness.GetOr(fromDb);
    var snapshot := if fromDb then kw else map[];
    var d := MakeDbFields(MetaArgs(kw), cls.Collection(), autoId);
    match d.error
    case Some(e) => Built(cls, Failure(DeriveFailed(e)))
    case None =>
      assert d.meta.ref.Some?;
      if forgive then
        var (cls', values) := AddInitForgiveness(cls, validate, kw);
        match values
        case None => Built(cls', Failure(ValidationError))
        case Some(f) => Built(cls', Success(Record(f, d.meta, snapshot)))
      else
        match validate(cls.schema, kw)
        case None => Built(cls, Failure(ValidationError))
        case Some(f) => Built(cls, Success(Record(f, d.meta, snapshot)))
  }

  /** `add_init_forgiveness` with the restoring loop in a `finally`:
      relax, validate, and restore the flipped flags whether validation
      passes or raises. The class comes back as it was. */
  function AddInitForgivenessRestoring(cls: ModelClass, validate: Validator, kw: Kwargs): (r: (ModelClass, Option<Kwargs>))
    ensures r.1 == validate(Relax(cls.schema, kw), kw)
    ensures r.0 == cls
  {
    var relaxed := Relax(cls.schema, kw);
    var values := validate(relaxed, kw);
    RestoreUndoesRelax(cls.schema, kw);
    (cls.(schema := Restore(relaxed, Flipped(cls.schema, kw))), values)
  }

  /** `MagicModel.__init__` over the restoring `add_init_forgiveness`:
      construction no longer changes the class, and it yields the same
      record or error as the construction as written. */
  function NewRestoring(cls: ModelClass, validate: Validator, kw: Kwargs, fromDb: bool,
                        forgiveness: Option<bool>, autoId: string): (b: Built)
    ensures b.cls == cls
    ensures b.result == New(cls, validate, kw, fromDb, forgiveness, autoId).result
  {
    var forgive := forgiveness.GetOr(fromDb);
    var snapshot := if fromDb then kw else map[];
    var d := MakeDbFields(MetaArgs(kw), cls.Collection(), autoId);
    match d.error
    case Some(e) => Built(cls, Failure(DeriveFailed(e)))
    case None =>
      if forgive then
        var (cls', values) := AddInitForgivenessRestoring(cls, validate, kw);
        match values
        case None => Built(cls', Failure(ValidationError))
        case Some(f) => Built(cls', Success(Record(f, d.meta, snapshot)))
      else
        match validate(cls.schema, kw)
        case None => Built(cls, Failure(ValidationError))
        case Some(f) => Built(cls, Success(Record(f, d.meta, snapshot)))
  }

  /** Leaving `forgiveness` out is the same as passing `from_db`. */
  lemma ForgivenessDefaultsToFromDb(cls: ModelClass, validate: Validator, kw: Kwargs, fromDb: bool, autoId: string)
    ensures New(cls, validate, kw, fromDb, None, autoId) == New(cls, validate, kw, fromDb, Some(fromDb), autoId)
  {
  }

  /** The metadata of a new record is the derivation from its keyword bag,
      and a derivation that raises makes construction raise. */
  lemma NewDerivesMetadata(cls: ModelClass, validate: Validator, kw: Kwargs, fromDb: bool,
                           forgiveness: Option<bool>, autoId: string)
    ensures var b := New(cls, validate, kw, fromDb, forgiveness, autoId);
            var d := MakeDbFields(MetaArgs(kw), cls.Collection(), autoId);
            && (d.error.Some? ==> b.result == Failure(DeriveFailed(d.error.value)))
            && (b.result.Success? ==> b.result.value.meta == d.meta && d.error.None?)
  {
  }

  // ---------------------------------------------------------------------
  // Relaxed flags survive a failed forgiving construction

  /** A stand-in for pydantic on a class with `name: str` and `age: int`:
      a missing required field or a non-integer age is rejected. */
  function ExampleValidator(s: Schema, kw: Kwargs): Option<Kwargs> {
    if exists i :: 0 <= i < |s| && Relaxable(s[i], kw) then None
    else if "age" in kw && !kw["age"].VInt? then None
    else Some(kw)
  }

  const Manager := ModelClass("Manager", None, [FieldDecl("name", true), FieldDecl("age", true)])

  /** `Manager` with `name` relaxed. */
  const RelaxedManager := ModelClass("Manager", None, [FieldDecl("name", false), FieldDecl("age", true)])

  lemma ForgivingManagerFails()
    ensures New(Manager, ExampleValidator, map["age" := VStr("forty")], false, Some(true), "a1")
            == Built(RelaxedManager, Failure(ValidationError))
  {
    var kw := map["age" := VStr("forty")];
    var relaxed := Relax(Manager.schema, kw);
    assert relaxed == RelaxedManager.schema;
    assert ExampleValidator(relaxed, kw) == None;
    assert MetaArgs(kw) == Meta(None, None, None, None);
  }

  lemma ManagerRejectsMissingName()
    ensures New(Manager, ExampleValidator, map["age" := VInt(45)], false, None, "a2").result.Failure?
  {
    var kw := map["age" := VInt(45)];
    assert Relaxable(Manager.schema[0], kw);
    assert ExampleValidator(Manager.schema, kw) == None;
  }

  lemma RelaxedManagerAcceptsMissingName()
    ensures New(RelaxedManager, ExampleValidator, map["age" := VInt(45)], false, None, "a2").result.Success?
  {
    var kw := map["age" := VInt(45)];
    assert MetaArgs(kw) == Meta(None, None, None, None);
    assert !Relaxable(RelaxedManager.schema[0], kw) && !Relaxable(RelaxedManager.schema[1], kw);
    assert ExampleValidator(RelaxedManager.schema, kw) == Some(kw);
  }

  /** Construction with default arguments is strict: a `Manager` given
      only its `name` is rejected. */
  lemma PartialManagerRejectedByDefault()
    ensures New(Manager, ExampleValidator, map["name" := VStr("Michael Scott")], false, None, "a").result == Failure(ValidationError)
  {
    var kw := map["name" := VStr("Michael Scott")];
    assert Relaxable(Manager.schema[1], kw);
    assert ExampleValidator(Manager.schema, kw) == None;
  }

  /** A forgiving construction that fails on a bad `age` leaves `name`
      optional on the class, so a later strict construction without `name`
      is accepted, although the untouched class rejects it. */
  lemma FailedForgivingConstructionLeaksRelaxation()
    ensures var first := New(Manager, ExampleValidator, map["age" := VStr("forty")], false, Some(true), "a1");
            && first.result == Failure(ValidationError)
            && !first.cls.schema[0].required
            && New(first.cls, ExampleValidator, map["age" := VInt(45)], false, None, "a2").result.Success?
            && New(Manager, ExampleValidator, map["age" := VInt(45)], false, None, "a2").result.Failure?
  {
    ForgivingManagerFails();
    RelaxedManagerAcceptsMissingName();
    ManagerRejectsMissingName();
  }

  /** With the flags restored on every path, the same two constructions
      leave the second one rejected. */
  lemma RestoringConstructionKeepsFlags()
    ensures var first := NewRestoring(Manager, ExampleValidator, map["age" := VStr("forty")], false, Some(true), "a1");
            && first.result == Failure(ValidationError)
            && first.cls == Manager
            && NewRestoring(first.cls, ExampleValidator, map["age" := VInt(45)], false, None, "a2").result.Failure?
  {
    ForgivingManagerFails();
    ManagerRejectsMissingName();
  }
}

=== FILE: datemodel.dfy ===
/** Timestamp policy of `DateModel` over whole histories: `created_at` is
    written once, `last_updated` is re-stamped by every operation, and the
    `update` fallback reaches `DateModel.save`. Each property assumes the
    validator keeps the timestamp it is about (`Keeps`): pydantic returns a
    datetime, or the `None` of an unset field, as it is given. */
module DateModel {
  import opened Wrappers
  import opened Records
  import opened Stamps
  import opened Lifecycle

  /** One call a program makes on a `DateModel` instance, with its
      arguments, the clock reading and the store's answers. */
  datatype DateOp =
    | SaveOp(createdAt: Option<int>, lastUpdated: Option<int>, now: int, store: Store,
             batch: bool, merge: bool, ignoreFields: bool)
    | UpdateOp(lastUpdated: Option<int>, now: int, store: Store,
               batch: bool, create: bool, ignoreFields: bool)

  /** The record after one call, whether it returned or raised. */
  function Apply(ctx: Context, r: Record, op: DateOp): Record {
    match op
    case SaveOp(c, l, now, store, batch, merge, ignore) => DateSave(ctx, r, c, l, now, store, batch, merge, ignore).rec
    case UpdateOp(l, now, store, batch, create, ignore) => DateUpdate(ctx, r, l, now, store, batch, create, ignore).rec
  }

  /** The record after a sequence of calls. */
  function Run(ctx: Context, r: Record, ops: seq<DateOp>): Record
    decreases |ops|
  {
    if |ops| == 0 then r else Run(ctx, Apply(ctx, r, ops[0]), ops[1..])
  }

  /** Once set to a datetime, `created_at` survives every later save and
      update. */
  lemma {:induction false} CreatedAtNeverOverwritten(ctx: Context, r: Record, ops: seq<DateOp>)
    requires Keeps(ctx, CreatedAt) && FieldSet(r.fields, CreatedAt) && r.fields[CreatedAt].VTime?
    ensures CreatedAt in Run(ctx, r, ops).fields
    ensures Run(ctx, r, ops).fields[CreatedAt] == r.fields[CreatedAt]
    decreases |ops|
  {
    if |ops| > 0 {
      var next := Apply(ctx, r, ops[0]);
      assert next.fields[CreatedAt] == r.fields[CreatedAt];
      CreatedAtNeverOverwritten(ctx, next, ops[1..]);
    }
  }

  /** Running two histories one after the other is running their
      concatenation. */
  lemma {:induction false} RunAppend(ctx: Context, r: Record, a: seq<DateOp>, b: seq<DateOp>)
    ensures Run(ctx, r, a + b) == Run(ctx, Run(ctx, r, a), b)
    decreases |a|
  {
    if |a| > 0 {
      assert (a + b)[1..] == a[1..] + b;
      RunAppend(ctx, Apply(ctx, r, a[0]), a[1..], b);
    } else {
      assert a + b == b;
    }
  }

  /** An update that cannot fall back to `save` leaves `created_at`
      as it finds it, set or not. */
  predicate PlainUpdate(op: DateOp) {
    op.UpdateOp? && !op.create
  }

  /** Updates without `create` leave a `created_at` entry alone, set to a
      datetime or unset. */
  lemma {:induction false} UpdatesKeepCreatedAt(ctx: Context, r: Record, ops: seq<DateOp>)
    requires Keeps(ctx, CreatedAt) && CreatedAt in r.fields && IsDate(r.fields[CreatedAt])
    requires forall i :: 0 <= i < |ops| ==> PlainUpdate(ops[i])
    ensures CreatedAt in Run(ctx, r, ops).fields
    ensures Run(ctx, r, ops).fields[CreatedAt] == r.fields[CreatedAt]
    decreases |ops|
  {
    if |ops| > 0 {
      var next := Apply(ctx, r, ops[0]);
      assert PlainUpdate(ops[0]);
      assert next.fields[CreatedAt] == r.fields[CreatedAt];
      UpdatesKeepCreatedAt(ctx, next, ops[1..]);
    }
  }

  /** A save on a record whose `created_at` is unset (present, but falsy)
      stamps it with a datetime: the supplied value or the clock. */
  lemma SaveStampsCreatedAt(ctx: Context, r: Record, op: DateOp)
    requires op.SaveOp? && Keeps(ctx, CreatedAt) && CreatedAt in r.fields && !FieldSet(r.fields, CreatedAt)
    ensures CreatedAt in Apply(ctx, r, op).fields
    ensures Apply(ctx, r, op).fields[CreatedAt] == VTime(op.createdAt.GetOr(op.now))
  {
  }

  /** Write-once: on a record whose `created_at` is unset, the first save
      fixes it to the supplied value or the clock, for the rest of the
      record's history. Updates before that save (without `create`, so
      none of them is a save in disguise) leave it unset. The record must
      carry a `created_at` entry, since the save raises on a deleted one;
      with leading updates, that entry is `None`, as pydantic gives an unset
      field. */
  lemma CreatedAtWriteOnce(ctx: Context, r: Record, pre: seq<DateOp>, first: DateOp, rest: seq<DateOp>)
    requires first.SaveOp? && Keeps(ctx, CreatedAt) && !FieldSet(r.fields, CreatedAt)
    requires forall i :: 0 <= i < |pre| ==> PlainUpdate(pre[i])
    requires CreatedAt in r.fields
    requires |pre| == 0 || IsDate(r.fields[CreatedAt])
    ensures CreatedAt in Run(ctx, r, pre + [first] + rest).fields
    ensures Run(ctx, r, pre + [first] + rest).fields[CreatedAt] == VTime(first.createdAt.GetOr(first.now))
  {
    var mid := Run(ctx, r, pre);
    if |pre| > 0 {
      UpdatesKeepCreatedAt(ctx, r, pre);
    }
    assert !FieldSet(mid.fields, CreatedAt);
    assert pre + [first] + rest == pre + ([first] + rest);
    RunAppend(ctx, r, pre, [first] + rest);
    var next := Apply(ctx, mid, first);
    SaveStampsCreatedAt(ctx, mid, first);
    assert Run(ctx, mid, [first] + rest) == Run(ctx, next, rest) by {
      assert ([first] + rest)[1..] == rest;
    }
    CreatedAtNeverOverwritten(ctx, next, rest);
  }

  /** `op` is an update that hands over to a `DateModel.save` that
      re-stamps the record. */
  predicate ResavesOp(ctx: Context, r: Record, op: DateOp) {
    && op.UpdateOp?
    && Resaves(ctx, r.(fields := StampUpdate(r.fields, op.lastUpdated, op.now)), op.store, op.create, op.ignoreFields)
  }

  /** Every operation leaves `last_updated` holding a stamp of its own: the
      supplied value or the clock of that call, or, when `update` falls back
      to a re-stamping `save`, that call's clock. A save on a record whose
      `created_at` was deleted raises first and changes nothing. */
  lemma LastUpdatedRestamped(ctx: Context, r: Record, op: DateOp)
    requires Keeps(ctx, LastUpdated)
    ensures op.SaveOp? && CreatedAt !in r.fields ==> Apply(ctx, r, op) == r
    ensures op.SaveOp? && CreatedAt in r.fields
            ==> LastUpdated in Apply(ctx, r, op).fields && Apply(ctx, r, op).fields[LastUpdated] == VTime(op.lastUpdated.GetOr(op.now))
    ensures op.UpdateOp? && !ResavesOp(ctx, r, op)
            ==> LastUpdated in Apply(ctx, r, op).fields && Apply(ctx, r, op).fields[LastUpdated] == VTime(op.lastUpdated.GetOr(op.now))
    ensures ResavesOp(ctx, r, op)
            ==> LastUpdated in Apply(ctx, r, op).fields && Apply(ctx, r, op).fields[LastUpdated] == VTime(op.now)
  {
  }

  /** The stamps reach the store: a successful `DateModel.save` writes the
      stamped `last_updated` and `created_at`, and, when it does not merge,
      they are in the new snapshot. */
  lemma DateSaveWritesStamps(ctx: Context, r: Record, createdAt: Option<int>, lastUpdated: Option<int>, now: int,
                             store: Store, batch: bool, merge: bool, ignoreFields: bool)
    requires Keeps(ctx, CreatedAt) && Keeps(ctx, LastUpdated)
    requires DateSave(ctx, r, createdAt, lastUpdated, now, store, batch, merge, ignoreFields).out == ReturnedSelf
    ensures var s := DateSave(ctx, r, createdAt, lastUpdated, now, store, batch, merge, ignoreFields);
            && |s.calls| == 1 && s.calls[0].SetCall?
            && s.calls[0].data[LastUpdated] == VTime(lastUpdated.GetOr(now))
            && (FieldSet(r.fields, CreatedAt) && r.fields[CreatedAt].VTime?
                ==> CreatedAt in s.calls[0].data && s.calls[0].data[CreatedAt] == r.fields[CreatedAt])
            && (!FieldSet(r.fields, CreatedAt) ==> CreatedAt in s.calls[0].data && s.calls[0].data[CreatedAt] == VTime(createdAt.GetOr(now)))
            && (!merge ==> s.rec.snapshot[LastUpdated] == VTime(lastUpdated.GetOr(now)))
  {
  }

  /** On a record with no snapshot, the update payload is the whole record,
      so it carries the stamped `last_updated`. */
  lemma DateUpdateSendsStamp(ctx: Context, r: Record, lastUpdated: Option<int>, now: int, store: Store,
                             batch: bool, create: bool, ignoreFields: bool)
    requires Keeps(ctx, LastUpdated) && |r.snapshot| == 0
    ensures var s := DateUpdate(ctx, r, lastUpdated, now, store, batch, create, ignoreFields);
            |s.calls| >= 1 ==> s.calls[0].UpdateCall? && LastUpdated in s.calls[0].data && s.calls[0].data[LastUpdated] == VTime(lastUpdated.GetOr(now))
  {
    var stamped := r.(fields := StampUpdate(r.fields, lastUpdated, now));
    var c := Revalidate(ctx, stamped.fields, ignoreFields);
    RevalidateKeeps(ctx, stamped.fields, ignoreFields, LastUpdated);
    var s := DateUpdate(ctx, r, lastUpdated, now, store, batch, create, ignoreFields);
    assert s == Update(ctx, Dated, now, stamped, store, batch, create, ignoreFields);
    if |s.calls| >= 1 {
      assert s.calls[0].data == Payload(ctx, stamped.snapshot, c.fields) == c.fields;
    }
  }

  /** `update(create=True)` on a missing document dispatches to
      `DateModel.save` with no timestamps: `created_at` is stamped with the
      clock if it was unset, and `last_updated` is re-stamped with the
      clock, discarding the value the caller gave `update`. When the save
      goes through, it writes that clock value. This needs the save to get
      past reading `created_at` (`Resaves`): a deleted `created_at` makes it
      raise, leaving the caller's `last_updated`. */
  lemma UpdateFallbackRestamps(ctx: Context, r: Record, lastUpdated: Option<int>, now: int, store: Store,
                               batch: bool, ignoreFields: bool)
    requires Keeps(ctx, CreatedAt) && Keeps(ctx, LastUpdated)
    requires Resaves(ctx, r.(fields := StampUpdate(r.fields, lastUpdated, now)), store, true, ignoreFields)
    ensures var s := DateUpdate(ctx, r, lastUpdated, now, store, batch, true, ignoreFields);
            && s.calls[0].UpdateCall?
            && s.rec.fields[LastUpdated] == VTime(now)
            && (FieldSet(r.fields, CreatedAt) && r.fields[CreatedAt].VTime?
                ==> CreatedAt in s.rec.fields && s.rec.fields[CreatedAt] == r.fields[CreatedAt])
            && (CreatedAt in r.fields && r.fields[CreatedAt].VNull?
                ==> CreatedAt in s.rec.fields && s.rec.fields[CreatedAt] == VTime(now))
            && (s.out == ReturnedSelf ==>
                  |s.calls| == 2 && s.calls[1].SetCall? && s.calls[1].data[LastUpdated] == VTime(now)
                  && s.rec.snapshot == s.rec.fields)
  {
    var stamped := r.(fields := StampUpdate(r.fields, lastUpdated, now));
    var c := Revalidate(ctx, stamped.fields, ignoreFields);
    RevalidateKeeps(ctx, stamped.fields, ignoreFields, CreatedAt);
    RevalidateKeeps(ctx, stamped.fields, ignoreFields, LastUpdated);
    var fallback := DateSave(ctx, stamped.(fields := c.fields), None, None, now, store, batch, false, false);
    assert CreatedAt in r.fields && IsDate(r.fields[CreatedAt]) ==> CreatedAt in c.fields && c.fields[CreatedAt] == r.fields[CreatedAt];
  }
}

=== FILE: lifecycle.dfy ===
/** `MagicModel.save` and `MagicModel.update`, and the `DateModel`
    overrides that stamp timestamps and then delegate to them.

    Every operation is a transition from a record to a `Step`: the record
    as the operation leaves it (also when it raises, since assignments made
    before the exception stay), the store calls it issued, and how it
    ended. The store's answer to each call is an input. `update`'s fallback
    `self.save(batch=batch)` is dispatched on the record's class, so
    `Update` takes the class `Kind`: for a `DateModel` the fallback is
    `DateModel.save` with no timestamps supplied. */
module Lifecycle {
  import opened Wrappers
  import opened Paths
  import Text
  import opened Metadata
  import opened Records
  import opened Stamps

  /** The class's current fields, pydantic, and `make_update_obj`. */
  datatype Context = Context(schema: Schema, validate: Validator, diff: Differ)

  /** Whether a write goes straight to the document or is staged on the
      caller's batch. */
  datatype Channel = Direct | Batched

  datatype Call =
    | SetCall(channel: Channel, path: Path, data: Kwargs, merge: bool)
    | UpdateCall(channel: Channel, path: Path, data: Kwargs)

  /** How the store answers one call: it accepts it, or it raises an
      exception that may carry a `.message`. */
  datatype StoreAnswer = Accepted | Failed(message: Option<string>)

  /** The store's answer to a `set` and to an `update` on this record. */
  datatype Store = Store(onSet: StoreAnswer, onUpdate: StoreAnswer)

  /** `ReturnedSelf` is `return self`, `ReturnedNone` a fall-through. */
  datatype Outcome = ReturnedSelf | ReturnedNone | Raised(error: Error)

  datatype Step = Step(rec: Record, calls: seq<Call>, out: Outcome)

  /** The class whose `save` the `update` fallback reaches. */
  datatype Kind = Plain | Dated

  function ChannelOf(batch: bool): Channel {
    if batch then Batched else Direct
  }

  /** Field values after re-validation, and whether it passed. */
  datatype Checked = Checked(fields: Kwargs, ok: bool)

  /** `validate_py`: two construction passes, each replacing the field
      values with the validated ones; a failing pass raises and leaves the
      values of the previous one. */
  function ValidatePy(ctx: Context, fields: Kwargs): Checked {
    match ctx.validate(ctx.schema, fields)
    case None => Checked(fields, false)
    case Some(once) =>
      match ctx.validate(ctx.schema, once)
      case None => Checked(once, false)
      case Some(twice) => Checked(twice, true)
  }

  /** `if not ignore_fields: self.validate_py()`. */
  function Revalidate(ctx: Context, fields: Kwargs, ignoreFields: bool): Checked {
    if ignoreFields then Checked(fields, true) else ValidatePy(ctx, fields)
  }

  /** A value a `datetime` field holds as pydantic leaves it: a datetime,
      or `None` when the field is unset. */
  predicate IsDate(v: Value) {
    v.VTime? || v.VNull?
  }

  /** Validation hands back the value of the `datetime` field `name` as it
      is given, when that value is a datetime or `None`. (Other values,
      such as an integer read as a Unix time, may be coerced.) */
  ghost predicate Keeps(ctx: Context, name: string) {
    forall kw: Kwargs :: name in kw && IsDate(kw[name]) && ctx.validate(ctx.schema, kw).Some? ==>
      name in ctx.validate(ctx.schema, kw).value && ctx.validate(ctx.schema, kw).value[name] == kw[name]
  }

  /** Re-validation by a validator that keeps a field keeps it too, on
      every path, also when a pass raises. */
  lemma RevalidateKeeps(ctx: Context, fields: Kwargs, ignoreFields: bool, name: string)
    ensures Keeps(ctx, name) && name in fields && IsDate(fields[name]) ==>
              name in Revalidate(ctx, fields, ignoreFields).fields
              && Revalidate(ctx, fields, ignoreFields).fields[name] == fields[name]
  {
  }

  /** The update payload: the full dict when the snapshot is empty (falsy),
      otherwise the differ's patch against the snapshot. */
  function Payload(ctx: Context, snapshot: Kwargs, fields: Kwargs): Kwargs {
    if |snapshot| == 0 then fields else ctx.diff(snapshot, fields)
  }

  const MissingDocumentText: string := "no document to update"

  /** `hasattr(e, 'message') and 'no document to update' in e.message.lower()`. */
  predicate IsMissingDocument(message: Option<string>) {
    message.Some? && Text.Contains(Text.Lower(message.value), MissingDocumentText)
  }

  /** How `f'{key}'` renders the record's key. */
  function KeyText(key: Option<string>): string {
    match key
    case None => "None"
    case Some(k) => k
  }

  const ErrorPrefix: string := "There is no document with key "
  const ErrorSuffix: string :=
    " to update. Add update.(create=True) to save the document if it does not exist."
    + " Otherwise, you can save the document: save()."

  /** `DatabaseError(key).message`. */
  function DatabaseErrorText(key: string): string {
    ErrorPrefix + key + ErrorSuffix
  }

  /** The error `update` raises: `raise DatabaseError(db_error.message)`
      hands the first error's message to the constructor as the key, so the
      text wraps itself once more. The record's key is in it. */
  function MissingDocumentError(key: Option<string>): (e: Error)
    ensures e.DatabaseError?
    ensures Text.Contains(e.message, KeyText(key))
  {
    WrappedTwiceContains(ErrorPrefix, KeyText(key), ErrorSuffix);
    DatabaseError(DatabaseErrorText(DatabaseErrorText(KeyText(key))))
  }

  lemma WrappedTwiceContains(prefix: string, k: string, suffix: string)
    ensures Text.Contains(prefix + (prefix + k + suffix) + suffix, k)
  {
    assert prefix + (prefix + k + suffix) + suffix == (prefix + prefix) + k + (suffix + suffix);
    Text.ContainsMiddle(prefix + prefix, k, suffix + suffix);
  }

  /** `MagicModel.save`: re-validate unless told not to, then `set` the
      serialized record at its ref, directly or on the batch. A save that
      does not merge makes the written dict the new snapshot; a merging save
      leaves the snapshot alone. */
  function Save(ctx: Context, r: Record, store: Store, batch: bool, merge: bool, ignoreFields: bool): (s: Step)
    ensures s.rec.meta == r.meta
    ensures s.rec.fields == Revalidate(ctx, r.fields, ignoreFields).fields
    ensures s.out != ReturnedNone
    ensures |s.calls| <= 1
    ensures |s.calls| == 1 <==> Revalidate(ctx, r.fields, ignoreFields).ok && r.meta.ref.Some?
    ensures |s.calls| == 1 ==> s.calls[0] == SetCall(ChannelOf(batch), r.meta.ref.value, s.rec.fields, merge)
    ensures s.out == ReturnedSelf <==> |s.calls| == 1 && store.onSet.Accepted?
    ensures |s.calls| == 1 && store.onSet.Failed? ==> s.out == Raised(StoreError(store.onSet.message))
    ensures s.out == ReturnedSelf && !merge ==> s.rec.snapshot == s.rec.fields
    ensures s.out != ReturnedSelf || merge ==> s.rec.snapshot == r.snapshot
  {
    var c := Revalidate(ctx, r.fields, ignoreFields);
    var r1 := r.(fields := c.fields);
    if !c.ok then Step(r1, [], Raised(ValidationError))
    else
      match r.meta.ref
      case None => Step(r1, [], Raised(MissingRef))
      case Some(p) =>
        var call := SetCall(ChannelOf(batch), p, c.fields, merge);
        match store.onSet
        case Failed(m) => Step(r1, [call], Raised(StoreError(m)))
        case Accepted =>
          if merge then Step(r1, [call], ReturnedSelf)
          else Step(r1.(snapshot := c.fields), [call], ReturnedSelf)
  }

  /** `DateModel.save`: stamp, then `MagicModel.save`. Testing `created_at`
      on a record whose `created_at` was deleted raises `AttributeError`
      before anything is assigned or sent. Otherwise, when validation keeps
      the timestamps, the record keeps the stamps whatever the save does,
      and a successful save writes them (and, not merging, snapshots them). */
  function DateSave(ctx: Context, r: Record, createdAt: Option<int>, lastUpdated: Option<int>, now: int,
                    store: Store, batch: bool, merge: bool, ignoreFields: bool): (s: Step)
    ensures s.rec.meta == r.meta && s.out != ReturnedNone && |s.calls| <= 1
    ensures CreatedAt !in r.fields ==> s == Step(r, [], Raised(MissingAttribute(CreatedAt)))
    ensures |s.calls| == 1 <==>
              CreatedAt in r.fields && Revalidate(ctx, StampSave(r.fields, createdAt, lastUpdated, now), ignoreFields).ok && r.meta.ref.Some?
    ensures |s.calls| == 1 ==> s.calls[0] == SetCall(ChannelOf(batch), r.meta.ref.value, s.rec.fields, merge)
    ensures s.out == ReturnedSelf <==> |s.calls| == 1 && store.onSet.Accepted?
    ensures |s.calls| == 1 && store.onSet.Failed? ==> s.out == Raised(StoreError(store.onSet.message))
    ensures s.out != ReturnedSelf || merge ==> s.rec.snapshot == r.snapshot
    ensures Keeps(ctx, LastUpdated) && CreatedAt in r.fields
            ==> LastUpdated in s.rec.fields && s.rec.fields[LastUpdated] == VTime(lastUpdated.GetOr(now))
    ensures Keeps(ctx, CreatedAt) && FieldSet(r.fields, CreatedAt) && r.fields[CreatedAt].VTime?
            ==> CreatedAt in s.rec.fields && s.rec.fields[CreatedAt] == r.fields[CreatedAt]
    ensures Keeps(ctx, CreatedAt) && CreatedAt in r.fields && !FieldSet(r.fields, CreatedAt)
            ==> CreatedAt in s.rec.fields && s.rec.fields[CreatedAt] == VTime(createdAt.GetOr(now))
    ensures s.out == ReturnedSelf && !merge ==> s.rec.snapshot == s.rec.fields
  {
    if CreatedAt !in r.fields then Step(r, [], Raised(MissingAttribute(CreatedAt)))
    else
      var stamped := r.(fields := StampSave(r.fields, createdAt, lastUpdated, now));
      var s := Save(ctx, stamped, store, batch, merge, ignoreFields);
      RevalidateKeeps(ctx, stamped.fields, ignoreFields, LastUpdated);
      RevalidateKeeps(ctx, stamped.fields, ignoreFields, CreatedAt);
      s
  }

  /** `self.save(batch=batch)` as the `update` fallback calls it: default
      `merge` and `ignore_fields`, and, for a `DateModel`, no timestamps. */
  function FallbackSave(ctx: Context, kind: Kind, now: int, r: Record, store: Store, batch: bool): Step {
    match kind
    case Plain => Save(ctx, r, store, batch, false, false)
    case Dated => DateSave(ctx, r, None, None, now, store, batch, false, false)
  }

  /** `update` hands over to `save` and, for a `DateModel`, that save gets
      past reading `created_at`, so it re-stamps the record. */
  predicate Resaves(ctx: Context, r: Record, store: Store, create: bool, ignoreFields: bool) {
    FallsBack(ctx, r, store, create, ignoreFields) && CreatedAt in Revalidate(ctx, r.fields, ignoreFields).fields
  }

  /** The update is sent and the store reports the document missing, with
      `create` set: the case where `update` hands over to `save`. */
  predicate FallsBack(ctx: Context, r: Record, store: Store, create: bool, ignoreFields: bool) {
    && Revalidate(ctx, r.fields, ignoreFields).ok
    && r.meta.ref.Some?
    && store.onUpdate.Failed?
    && IsMissingDocument(store.onUpdate.message)
    && create
  }

  /** `MagicModel.update`: re-validate unless told not to, then send the
      payload as a partial update at the record's ref, directly or on the
      batch. Unless it falls back to `save`, it neither refreshes the
      snapshot nor issues a second call; when it falls back, the rest is
      the class's `save(batch=batch)`. How failures are classified is
      `UpdateOutcomes`. */
  function Update(ctx: Context, kind: Kind, now: int, r: Record, store: Store,
                  batch: bool, create: bool, ignoreFields: bool): (s: Step)
    ensures s.rec.meta == r.meta
    ensures |s.calls| <= 2
    ensures |s.calls| >= 1 <==> Revalidate(ctx, r.fields, ignoreFields).ok && r.meta.ref.Some?
    ensures |s.calls| >= 1 ==>
              s.calls[0] == UpdateCall(ChannelOf(batch), r.meta.ref.value, Payload(ctx, r.snapshot, Revalidate(ctx, r.fields, ignoreFields).fields))
    ensures !FallsBack(ctx, r, store, create, ignoreFields) ==>
              && |s.calls| <= 1
              && s.rec.snapshot == r.snapshot
              && s.rec.fields == Revalidate(ctx, r.fields, ignoreFields).fields
    ensures FallsBack(ctx, r, store, create, ignoreFields) ==>
              var fallback := FallbackSave(ctx, kind, now, r.(fields := Revalidate(ctx, r.fields, ignoreFields).fields), store, batch);
              && s.rec == fallback.rec && s.out == fallback.out && s.calls[1..] == fallback.calls
  {
    var c := Revalidate(ctx, r.fields, ignoreFields);
    var r1 := r.(fields := c.fields);
    if !c.ok then Step(r1, [], Raised(ValidationError))
    else
      match r.meta.ref
      // `None.update(...)` raises AttributeError inside the `try`; it has no
      // `.message`, so it is swallowed like any other exception.
      case None => Step(r1, [], ReturnedNone)
      case Some(p) =>
        var call := UpdateCall(ChannelOf(batch), p, Payload(ctx, r.snapshot, c.fields));
        match store.onUpdate
        case Accepted => Step(r1, [call], ReturnedSelf)
        case Failed(m) =>
          if !IsMissingDocument(m) then Step(r1, [call], ReturnedNone)
          else if create then
            var s := FallbackSave(ctx, kind, now, r1, store, batch);
            assert ([call] + s.calls)[1..] == s.calls;
            Step(s.rec, [call] + s.calls, s.out)
          else Step(r1, [call], Raised(MissingDocumentError(r.meta.key)))
  }

  /** `DateModel.update`: stamp `last_updated`, then `MagicModel.update`
      with the `DateModel` fallback. */
  function DateUpdate(ctx: Context, r: Record, lastUpdated: Option<int>, now: int, store: Store,
                      batch: bool, create: bool, ignoreFields: bool): (s: Step)
    ensures s.rec.meta == r.meta
    ensures (Keeps(ctx, LastUpdated) && !Resaves(ctx, r.(fields := StampUpdate(r.fields, lastUpdated, now)), store, create, ignoreFields))
            ==> LastUpdated in s.rec.fields && s.rec.fields[LastUpdated] == VTime(lastUpdated.GetOr(now))
    ensures (Keeps(ctx, LastUpdated) && Resaves(ctx, r.(fields := StampUpdate(r.fields, lastUpdated, now)), store, create, ignoreFields))
            ==> LastUpdated in s.rec.fields && s.rec.fields[LastUpdated] == VTime(now)
    ensures (&& FallsBack(ctx, r.(fields := StampUpdate(r.fields, lastUpdated, now)), store, create, ignoreFields)
             && !Resaves(ctx, r.(fields := StampUpdate(r.fields, lastUpdated, now)), store, create, ignoreFields))
            ==> && s.out == Raised(MissingAttribute(CreatedAt)) && |s.calls| == 1
                && s.rec.fields == Revalidate(ctx, StampUpdate(r.fields, lastUpdated, now), ignoreFields).fields
    ensures Keeps(ctx, CreatedAt) && FieldSet(r.fields, CreatedAt) && r.fields[CreatedAt].VTime?
            ==> CreatedAt in s.rec.fields && s.rec.fields[CreatedAt] == r.fields[CreatedAt]
    ensures (Keeps(ctx, CreatedAt) && CreatedAt in r.fields && IsDate(r.fields[CreatedAt])
             && !FallsBack(ctx, r.(fields := StampUpdate(r.fields, lastUpdated, now)), store, create, ignoreFields))
            ==> CreatedAt in s.rec.fields && s.rec.fields[CreatedAt] == r.fields[CreatedAt]
    ensures |s.calls| >= 1 <==> Revalidate(ctx, StampUpdate(r.fields, lastUpdated, now), ignoreFields).ok && r.meta.ref.Some?
    ensures |s.calls| >= 1 ==>
              s.calls[0] == UpdateCall(ChannelOf(batch), r.meta.ref.value,
                                       Payload(ctx, r.snapshot, Revalidate(ctx, StampUpdate(r.fields, lastUpdated, now), ignoreFields).fields))
    ensures !FallsBack(ctx, r.(fields := StampUpdate(r.fields, lastUpdated, now)), store, create, ignoreFields)
            ==> |s.calls| <= 1 && s.rec.snapshot == r.snapshot
  {
    var stamped := r.(fields := StampUpdate(r.fields, lastUpdated, now));
    var s := Update(ctx, Dated, now, stamped, store, batch, create, ignoreFields);
    RevalidateKeeps(ctx, stamped.fields, ignoreFields, LastUpdated);
    RevalidateKeeps(ctx, stamped.fields, ignoreFields, CreatedAt);
    s
  }

  /** How `update` ends: a validation error raises before any call; a
      missing ref is swallowed; an accepted update returns the record; a
      "no document to update" failure without `create` raises
      `DatabaseError` naming the key; any other failure is swallowed. */
  lemma UpdateOutcomes(ctx: Context, kind: Kind, now: int, r: Record, store: Store,
                       batch: bool, create: bool, ignoreFields: bool)
    ensures var s := Update(ctx, kind, now, r, store, batch, create, ignoreFields);
            var ok := Revalidate(ctx, r.fields, ignoreFields).ok;
            && (!ok ==> s.out == Raised(ValidationError) && s.calls == [])
            && (ok && r.meta.ref.None? ==> s.out == ReturnedNone && s.calls == [])
            && (ok && r.meta.ref.Some? && store.onUpdate.Accepted? ==> s.out == ReturnedSelf && |s.calls| == 1)
            && ((ok && r.meta.ref.Some? && store.onUpdate.Failed? && !IsMissingDocument(store.onUpdate.message))
                ==> s.out == ReturnedNone && |s.calls| == 1)
            && ((ok && r.meta.ref.Some? && store.onUpdate.Failed? && IsMissingDocument(store.onUpdate.message) && !create)
                ==> (&& s.out == Raised(MissingDocumentError(r.meta.key)) && |s.calls| == 1
                     && Text.Contains(s.out.error.message, KeyText(r.meta.key))))
  {
  }

  /** `DateModel.update` returns what `MagicModel.update` returns on the
      stamped record: the same classification as `UpdateOutcomes`, and on a
      fallback the outcome of `DateModel.save` with no timestamps. */
  lemma DateUpdateOutcomes(ctx: Context, r: Record, lastUpdated: Option<int>, now: int, store: Store,
                           batch: bool, create: bool, ignoreFields: bool)
    ensures var s := DateUpdate(ctx, r, lastUpdated, now, store, batch, create, ignoreFields);
            var fields := StampUpdate(r.fields, lastUpdated, now);
            var c := Revalidate(ctx, fields, ignoreFields);
            && (!c.ok ==> s.out == Raised(ValidationError) && s.calls == [])
            && (c.ok && r.meta.ref.None? ==> s.out == ReturnedNone && s.calls == [])
            && (c.ok && r.meta.ref.Some? && store.onUpdate.Accepted? ==> s.out == ReturnedSelf && |s.calls| == 1)
            && ((c.ok && r.meta.ref.Some? && store.onUpdate.Failed? && !IsMissingDocument(store.onUpdate.message))
                ==> s.out == ReturnedNone && |s.calls| == 1)
            && ((c.ok && r.meta.ref.Some? && store.onUpdate.Failed? && IsMissingDocument(store.onUpdate.message) && !create)
                ==> s.out == Raised(MissingDocumentError(r.meta.key)) && |s.calls| == 1)
            && (FallsBack(ctx, r.(fields := fields), store, create, ignoreFields)
                ==> s.out == DateSave(ctx, r.(fields := c.fields), None, None, now, store, batch, false, false).out)
  {
    var stamped := r.(fields := StampUpdate(r.fields, lastUpdated, now));
    UpdateOutcomes(ctx, Dated, now, stamped, store, batch, create, ignoreFields);
  }

  /** `update` never raises `DatabaseError` when `create` is set, and only
      for a missing document otherwise. */
  lemma DatabaseErrorOnlyForMissingDocument(ctx: Context, kind: Kind, now: int, r: Record, store: Store,
                                            batch: bool, create: bool, ignoreFields: bool)
    ensures var s := Update(ctx, kind, now, r, store, batch, create, ignoreFields);
            s.out.Raised? && s.out.error.DatabaseError? <==>
              && Revalidate(ctx, r.fields, ignoreFields).ok && r.meta.ref.Some?
              && store.onUpdate.Failed? && IsMissingDocument(store.onUpdate.message) && !create
  {
    var s := Update(ctx, kind, now, r, store, batch, create, ignoreFields);
    if FallsBack(ctx, r, store, create, ignoreFields) {
      var fallback := FallbackSave(ctx, kind, now, r.(fields := Revalidate(ctx, r.fields, ignoreFields).fields), store, batch);
      assert !fallback.out.Raised? || !fallback.out.error.DatabaseError?;
    }
  }
}

=== FILE: metadata.dfy ===
/** Per-record metadata (`db_fields` in MagicModel.py): id, key, parent and
    ref, and the derivation that fills in three of them from the fourth.
    A parent record is represented by its own reference, which is all the
    derivation reads of it. Every derivation step returns the metadata
    as the source leaves it, together with the error it raised, if any:
    the source assigns fields one at a time, so a step that raises half-way
    leaves the earlier assignments in place. */
module Metadata {
  import opened Wrappers
  import opened Paths
  import Text

  /** A parent record, seen through its reference, which may be unset. */
  datatype Parent = Parent(ref: Option<Path>)

  datatype Meta = Meta(id: Option<string>, key: Option<string>, parent: Option<Parent>, ref: Option<Path>)

  datatype DeriveError =
    | KeyIsNone                // `db.conn.document(None)` fails
    | RefIsNone                // `None._path` raises AttributeError
    | NoSeparator(key: string) // `key.rindex('/')` raises ValueError
    | ParentRefIsNone          // `parent.ref.collection(...)` on a `None` ref raises AttributeError

  datatype Derived = Derived(meta: Meta, error: Option<DeriveError>)

  /** Python truthiness of an optional string: `None` and `""` are absent. */
  predicate Present(s: Option<string>) {
    s.Some? && s.value != ""
  }

  /** id, key and ref describe one document: the key is the joined ref, the
      ref is the split key, and the id is the key's last segment. */
  predicate WellFormed(m: Meta) {
    && m.id.Some? && m.key.Some? && m.ref.Some?
    && KeyFromRef(m.ref.value) == m.key.value
    && Split(m.key.value) == m.ref.value
    && IdFromKey(m.key.value) == m.id
  }

  /** `get_collection_name`: the `Meta.collection_name` override when the
      class defines one, otherwise the lower-cased class name. */
  function CollectionName(className: string, override: Option<string>): (name: string)
    ensures override.Some? ==> name == override.value
    ensures override.None? ==> |name| == |className|
    ensures override.None? ==> forall i :: 0 <= i < |name| ==> !Text.IsUpper(name[i])
    ensures override.None? ==> Text.Lower(name) == Text.Lower(className)
  {
    match override
    case Some(n) => n
    case None =>
      Text.LowerIdempotent(className);
      Text.Lower(className)
  }

  /** The path a new document's collection hangs from: the root when no
      parent is set, else the parent's ref, which is missing when the
      parent has none. */
  function Scope(parent: Option<Parent>): Option<Path> {
    match parent
    case None => Some([])
    case Some(p) => p.ref
  }

  /** The id the id branch uses: the supplied one when present, else the
      store's auto-generated one (`collection_ref.document()`). */
  function ChosenId(m: Meta, autoId: string): string {
    if Present(m.id) then m.id.value else autoId
  }

  /** `make_db_fields_from_key`: ref from the key, then id from the key. */
  function FromKey(m: Meta): (d: Derived)
    ensures d.meta.key == m.key && d.meta.parent == m.parent
    ensures m.key.None? ==> d == Derived(m, Some(KeyIsNone))
    ensures m.key.Some? ==> d.meta.ref == Some(Split(m.key.value))
    ensures m.key.Some? ==> (d.error.None? <==> Sep in m.key.value)
    ensures d.error.Some? ==> d.meta.id == m.id
    ensures d.error.None? ==> WellFormed(d.meta)
  {
    match m.key
    case None => Derived(m, Some(KeyIsNone))
    case Some(k) =>
      var m1 := m.(ref := Some(Split(k)));
      match IdFromKey(k)
      case None => Derived(m1, Some(NoSeparator(k)))
      case Some(i) =>
        JoinSplit(k);
        Derived(m1.(id := Some(i)), None)
  }

  /** `make_db_fields_from_ref`: key from the ref, then id from the key. */
  function FromRef(m: Meta): (d: Derived)
    ensures d.meta.ref == m.ref && d.meta.parent == m.parent
    ensures m.ref.None? ==> d == Derived(m, Some(RefIsNone))
    ensures m.ref.Some? ==> d.meta.key == Some(KeyFromRef(m.ref.value))
    ensures m.ref.Some? && Segments(m.ref.value) ==> (d.error.None? <==> |m.ref.value| >= 2)
    ensures d.error.Some? ==> d.meta.id == m.id
    ensures m.ref.Some? && Segments(m.ref.value) && d.error.None? ==> WellFormed(d.meta)
  {
    match m.ref
    case None => Derived(m, Some(RefIsNone))
    case Some(r) =>
      var k := KeyFromRef(r);
      var m1 := m.(key := Some(k));
      match IdFromKey(k)
      case None => Derived(m1, Some(NoSeparator(k)))
      case Some(i) =>
        assert Segments(r) ==> Split(k) == r by { if Segments(r) { SplitJoin(r); } }
        Derived(m1.(id := Some(i)), None)
  }

  /** `make_db_fields_from_id`: a document named by the chosen id in the
      class's collection, scoped under the parent when there is one; then
      the ref branch. It raises only when the parent has no ref, before
      assigning anything, and it keeps a supplied id. */
  function FromId(m: Meta, collection: string, autoId: string): (d: Derived)
    ensures d.meta.parent == m.parent
    ensures d.error.None? <==> Scope(m.parent).Some?
    ensures Scope(m.parent).None? ==> d == Derived(m, Some(ParentRefIsNone))
    ensures Scope(m.parent).Some? ==> d.meta.ref == Some(Scope(m.parent).value + [collection, ChosenId(m, autoId)])
    ensures Scope(m.parent).Some? && Sep !in ChosenId(m, autoId) ==> d.meta.id == Some(ChosenId(m, autoId))
    ensures Scope(m.parent).Some? && Present(m.id) && Sep !in m.id.value ==> d.meta.id == m.id
    ensures Scope(m.parent).Some? && Segments(Scope(m.parent).value + [collection, ChosenId(m, autoId)]) ==> WellFormed(d.meta)
  {
    match Scope(m.parent)
    case None => Derived(m, Some(ParentRefIsNone))
    case Some(scope) =>
      var path := scope + [collection, ChosenId(m, autoId)];
      assert Sep !in ChosenId(m, autoId) ==> IdFromKey(KeyFromRef(path)) == Some(ChosenId(m, autoId)) by {
        if Sep !in ChosenId(m, autoId) { IdOfKeyFromRef(path); }
      }
      FromRef(m.(ref := Some(path)))
  }

  /** `make_db_fields`: the key branch when a key is present, else the ref
      branch when a ref is present, else the id branch. */
  function MakeDbFields(m: Meta, collection: string, autoId: string): Derived {
    if Present(m.key) then FromKey(m)
    else if m.ref.Some? then FromRef(m)
    else FromId(m, collection, autoId)
  }

  // ---------------------------------------------------------------------
  // Setters: each re-runs exactly one branch

  /** The `id` setter. */
  function SetId(m: Meta, id: Option<string>, collection: string, autoId: string): Derived {
    FromId(m.(id := id), collection, autoId)
  }

  /** The `key` setter. */
  function SetKey(m: Meta, key: Option<string>): Derived {
    FromKey(m.(key := key))
  }

  /** The `parent` setter. */
  function SetParent(m: Meta, parent: Option<Parent>, collection: string, autoId: string): Derived {
    FromId(m.(parent := parent), collection, autoId)
  }

  /** The `ref` setter. */
  function SetRef(m: Meta, ref: Option<Path>): Derived {
    FromRef(m.(ref := ref))
  }

  // ---------------------------------------------------------------------
  // Properties of the derivation

  /** A present key wins: whatever ref, id and parent accompany it, the
      outcome, key and ref are those of the key alone, and so is the id
      whenever the derivation succeeds. */
  lemma KeyWins(m: Meta, id': Option<string>, parent': Option<Parent>, ref': Option<Path>,
                collection: string, collection': string, autoId: string, autoId': string)
    requires Present(m.key)
    ensures var d := MakeDbFields(m, collection, autoId);
            var d' := MakeDbFields(Meta(id', m.key, parent', ref'), collection', autoId');
            && d.error == d'.error && d.meta.key == d'.meta.key && d.meta.ref == d'.meta.ref
            && (d.error.None? ==> d.meta.id == d'.meta.id && d.meta.id == IdFromKey(m.key.value))
            && d.meta.ref == Some(Split(m.key.value))
  {
  }

  /** Without a key, a ref wins over id and parent. */
  lemma RefWinsOverId(m: Meta, id': Option<string>, parent': Option<Parent>,
                      collection: string, collection': string, autoId: string, autoId': string)
    requires !Present(m.key) && m.ref.Some?
    ensures var d := MakeDbFields(m, collection, autoId);
            var d' := MakeDbFields(Meta(id', m.key, parent', m.ref), collection', autoId');
            && d.error == d'.error && d.meta.key == d'.meta.key && d.meta.ref == d'.meta.ref
            && (d.error.None? ==> d.meta.id == d'.meta.id)
            && d.meta.key == Some(KeyFromRef(m.ref.value))
  {
  }

  /** With neither key nor ref, the ref is the chosen id in the class's
      collection, under the parent's ref when a parent is set; a parent
      without a ref makes the derivation raise. */
  lemma IdBranchScopesUnderParent(m: Meta, collection: string, autoId: string)
    requires !Present(m.key) && m.ref.None?
    ensures var d := MakeDbFields(m, collection, autoId);
            && (m.parent.None? ==> d.error.None? && d.meta.ref == Some([collection, ChosenId(m, autoId)]))
            && (m.parent.Some? && m.parent.value.ref.Some?
                ==> d.error.None? && d.meta.ref == Some(m.parent.value.ref.value + [collection, ChosenId(m, autoId)]))
            && (m.parent.Some? && m.parent.value.ref.None? ==> d.error == Some(ParentRefIsNone))
  {
    assert [] + [collection, ChosenId(m, autoId)] == [collection, ChosenId(m, autoId)];
  }

  /** Re-deriving metadata that is already well formed changes nothing. */
  lemma RederiveWellFormed(m: Meta, collection: string, autoId: string)
    requires WellFormed(m)
    ensures MakeDbFields(m, collection, autoId) == Derived(m, None)
  {
    assert Sep in m.key.value;
  }

  /** The key branch and the ref branch agree: setting the key of a path
      gives the same metadata as setting its ref, including the failure on
      a one-segment path. */
  lemma KeyAndRefSettersAgree(m: Meta, ref: Path)
    requires |ref| >= 1 && Segments(ref)
    ensures SetKey(m, Some(KeyFromRef(ref))) == SetRef(m, Some(ref))
  {
    SplitJoin(ref);
  }

  /** Setting the id ignores whatever key and ref the record had: they
      affect neither the outcome nor the derived metadata, and survive
      only when the derivation raises. */
  lemma SetIdIgnoresKeyAndRef(m: Meta, id: Option<string>, key': Option<string>, ref': Option<Path>,
                              collection: string, autoId: string)
    ensures var d := SetId(m, id, collection, autoId);
            var d' := SetId(m.(key := key', ref := ref'), id, collection, autoId);
            && d.error == d'.error
            && (d.error.None? ==> d == d')
            && (d.error.Some? ==> d.meta == m.(id := id) && d'.meta == m.(id := id, key := key', ref := ref'))
  {
  }

  /** Setting the parent keeps a present id and moves the document under
      the new parent's ref (to the root collection when the parent is
      cleared), whatever key and ref the record had. */
  lemma SetParentRescopes(m: Meta, parent: Option<Parent>, collection: string, autoId: string)
    requires Present(m.id) && Sep !in m.id.value
    ensures var d := SetParent(m, parent, collection, autoId);
            && d.meta.parent == parent
            && (d.error.None? <==> Scope(parent).Some?)
            && (Scope(parent).Some? ==> d.meta.id == m.id && d.meta.ref == Some(Scope(parent).value + [collection, m.id.value]))
  {
  }

  /** The key setter always runs the key branch, even for an empty key,
      which `make_db_fields` would pass over. */
  lemma SetKeyRunsKeyBranch(m: Meta, key: string, collection: string, autoId: string)
    ensures key != "" ==> SetKey(m, Some(key)) == MakeDbFields(m.(key := Some(key)), collection, autoId)
    ensures SetKey(m, Some("")).error == Some(NoSeparator(""))
    ensures SetKey(m, None).error == Some(KeyIsNone)
  {
  }

  /** The ref setter runs the ref branch even when a key is present, which
      `make_db_fields` would prefer. */
  lemma SetRefRunsRefBranch(m: Meta, ref: Path, collection: string, autoId: string)
    ensures !Present(m.key) ==> SetRef(m, Some(ref)) == MakeDbFields(m.(ref := Some(ref)), collection, autoId)
    ensures SetRef(m, Some(ref)).meta.key == Some(KeyFromRef(ref))
  {
  }

  /** The collection names the example models of the repository use. */
  lemma CollectionNameExamples()
    ensures CollectionName("Manager", None) == "manager"
    ensures CollectionName("Student", Some("students")) == "students"
  {
  }
}

=== FILE: paths.dfy ===
/** Document keys and references (MagicModel.py, `key_from_ref` and
    `id_from_key`). A reference is modelled by its path: the sequence of
    collection and document names from the store root. A key is the same
    path written as one `/`-separated string. */
module Paths {
  import opened Wrappers

  type Path = seq<string>

  const Sep: char := '/'

  /** Every segment of the path is free of the separator. */
  predicate Segments(p: Path) {
    forall i :: 0 <= i < |p| ==> Sep !in p[i]
  }

  /** `'/'.join(ref._path)`. */
  function KeyFromRef(ref: Path): (key: string)
    ensures |ref| >= 2 ==> Sep in key
    ensures Segments(ref) && |ref| <= 1 ==> Sep !in key
  {
    if |ref| == 0 then ""
    else if |ref| == 1 then ref[0]
    else
      var tail := KeyFromRef(ref[1..]);
      assert (ref[0] + [Sep] + tail)[|ref[0]|] == Sep;
      ref[0] + [Sep] + tail
  }

  /** `key.split('/')`: how the store turns a key into a document path. */
  function Split(key: string): (segs: Path)
    ensures |segs| >= 1
    ensures Segments(segs)
    decreases |key|
  {
    if |key| == 0 then [""]
    else
      var rest := Split(key[1..]);
      if key[0] == Sep then [""] + rest
      else [[key[0]] + rest[0]] + rest[1..]
  }

  /** Index of the last separator (`key.rindex('/')`), `None` where
      `rindex` raises `ValueError`. */
  function LastSep(key: string): (i: Option<nat>)
    ensures i.None? <==> Sep !in key
    ensures i.Some? ==> i.value < |key| && key[i.value] == Sep && Sep !in key[i.value + 1..]
    decreases |key|
  {
    if |key| == 0 then None
    else if key[|key| - 1] == Sep then Some(|key| - 1)
    else
      var j := LastSep(key[..|key| - 1]);
      assert key[..|key| - 1] + [key[|key| - 1]] == key;
      if j.Some? then
        assert key[j.value + 1..] == key[..|key| - 1][j.value + 1..] + [key[|key| - 1]];
        j
      else j
  }

  /** `key[key.rindex('/') + 1:]`; `None` stands for the `ValueError` raised
      on a key without a separator. The id is exactly the text after the
      last separator: a suffix of the key, preceded by `/`, holding none. */
  function IdFromKey(key: string): (id: Option<string>)
    ensures id.Some? <==> Sep in key
    ensures id.Some? ==> Sep !in id.value && |id.value| < |key|
    ensures id.Some? ==> key[|key| - |id.value| - 1] == Sep && key[|key| - |id.value|..] == id.value
  {
    match LastSep(key)
    case None => None
    case Some(i) => Some(key[i + 1..])
  }

  // ---------------------------------------------------------------------
  // Round trips between keys and paths

  lemma {:induction false} SplitNoSep(a: string)
    requires Sep !in a
    ensures Split(a) == [a]
    decreases |a|
  {
    if |a| > 0 {
      SplitNoSep(a[1..]);
      assert [a[0]] + a[1..] == a;
    }
  }

  lemma {:induction false} SplitCons(a: string, b: string)
    requires Sep !in a
    ensures Split(a + [Sep] + b) == [a] + Split(b)
    decreases |a|
  {
    var key := a + [Sep] + b;
    if |a| == 0 {
      assert key[1..] == b;
    } else {
      assert key[1..] == a[1..] + [Sep] + b;
      SplitCons(a[1..], b);
      assert [a[0]] + a[1..] == a;
    }
  }

  /** Joining the pieces of a split key gives the key back, for every key. */
  lemma {:induction false} JoinSplit(key: string)
    ensures KeyFromRef(Split(key)) == key
    decreases |key|
  {
    if |key| > 0 {
      var rest := Split(key[1..]);
      JoinSplit(key[1..]);
      var segs := Split(key);
      if key[0] == Sep {
        assert segs[1..] == rest;
      } else if |rest| == 1 {
        assert segs == [[key[0]] + rest[0]];
      } else {
        assert segs[1..] == rest[1..];
        assert KeyFromRef(rest) == rest[0] + [Sep] + KeyFromRef(rest[1..]);
      }
    }
  }

  /** Splitting the key of a non-empty path whose segments hold no separator
      gives the path back. */
  lemma {:induction false} SplitJoin(ref: Path)
    requires |ref| >= 1 && Segments(ref)
    ensures Split(KeyFromRef(ref)) == ref
    decreases |ref|
  {
    if |ref| == 1 {
      SplitNoSep(ref[0]);
    } else {
      SplitJoin(ref[1..]);
      SplitCons(ref[0], KeyFromRef(ref[1..]));
      assert [ref[0]] + ref[1..] == ref;
    }
  }

  lemma {:induction false} KeyFromRefSnoc(p: Path, s: string)
    requires |p| >= 1
    ensures KeyFromRef(p + [s]) == KeyFromRef(p) + [Sep] + s
    decreases |p|
  {
    if |p| == 1 {
      assert (p + [s])[1..] == [s];
    } else {
      assert (p + [s])[1..] == p[1..] + [s];
      KeyFromRefSnoc(p[1..], s);
    }
  }

  /** The id of `x/s` is `s` when `s` holds no separator. */
  lemma IdAfterSep(x: string, s: string)
    requires Sep !in s
    ensures IdFromKey(x + [Sep] + s) == Some(s)
  {
    var key := x + [Sep] + s;
    assert key[|x|] == Sep;
    assert key[|x| + 1..] == s;
  }

  lemma IdOfSnoc(p: Path, last: string)
    requires |p| >= 1 && Sep !in last
    ensures IdFromKey(KeyFromRef(p + [last])) == Some(last)
  {
    KeyFromRefSnoc(p, last);
    IdAfterSep(KeyFromRef(p), last);
  }

  /** `id_from_key(key_from_ref(r))` is the last segment of `r` when `r`
      has at least two segments and the last holds no separator. */
  lemma IdOfKeyFromRef(ref: Path)
    requires |ref| >= 2 && Sep !in ref[|ref| - 1]
    ensures IdFromKey(KeyFromRef(ref)) == Some(ref[|ref| - 1])
  {
    assert ref == ref[..|ref| - 1] + [ref[|ref| - 1]];
    IdOfSnoc(ref[..|ref| - 1], ref[|ref| - 1]);
  }

  /** ... and raises (`rindex` finds no separator) when `r` has one. */
  lemma IdOfSingleSegment(ref: Path)
    requires |ref| == 1 && Segments(ref)
    ensures IdFromKey(KeyFromRef(ref)) == None
  {
  }

  /** For every key with a separator, the id is the last piece of the split
      key, which is the segment the store's document path ends with. */
  lemma IdIsLastSegment(key: string)
    requires Sep in key
    ensures |Split(key)| >= 2
    ensures IdFromKey(key) == Some(Split(key)[|Split(key)| - 1])
  {
    var segs := Split(key);
    JoinSplit(key);
    assert Sep !in segs[|segs| - 1];
    IdOfKeyFromRef(segs);
  }
}

=== FILE: records.dfy ===
/** The record a model instance holds: its field values as pydantic keeps
    them, its metadata, and the snapshot `kwargs_from_db` that serves as the
    baseline for partial updates. Also the class-level facts the lifecycle
    reads: the field declarations with their `required` flags and the
    collection name. Validation (pydantic) and the update differ
    (`make_update_obj`) are foreign code, so they are carried as function
    values the caller supplies. */
module Records {
  import opened Wrappers
  import opened Paths
  import Metadata

  /** A field value as the model sees it. `VTime` is a datetime, `VRef` a
      document reference given by its path, `VModel` another record given
      by the path of its reference, which may be unset. */
  datatype Value =
    | VNull
    | VBool(b: bool)
    | VInt(i: int)
    | VStr(s: string)
    | VTime(t: int)
    | VRef(path: Path)
    | VModel(ref: Option<Path>)

  /** A keyword bag or a serialized record: field name to value. */
  type Kwargs = map<string, Value>

  /** Python truthiness. Datetimes, references and records are always true. */
  predicate Truthy(v: Value) {
    match v
    case VNull => false
    case VBool(b) => b
    case VInt(i) => i != 0
    case VStr(s) => s != ""
    case VTime(_) => true
    case VRef(_) => true
    case VModel(_) => true
  }

  /** `bool(record.name)`, an unset field reading as `None`. */
  predicate FieldSet(fields: Kwargs, name: string) {
    name in fields && Truthy(fields[name])
  }

  /** A declared field and its pydantic `required` flag. */
  datatype FieldDecl = FieldDecl(name: string, required: bool)

  type Schema = seq<FieldDecl>

  /** A model class: its name, its `Meta.collection_name` if it sets one,
      and its fields (`__fields__`, shared by every instance). */
  datatype ModelClass = ModelClass(name: string, collectionOverride: Option<string>, schema: Schema) {
    function Collection(): string {
      Metadata.CollectionName(name, collectionOverride)
    }
  }

  /** pydantic construction: the validated field values, or `None` where it
      raises `ValidationError`. */
  type Validator = (Schema, Kwargs) -> Option<Kwargs>

  /** `make_update_obj(original, new)`. */
  type Differ = (Kwargs, Kwargs) -> Kwargs

  datatype Record = Record(fields: Kwargs, meta: Metadata.Meta, snapshot: Kwargs)

  datatype Error =
    | DeriveFailed(cause: Metadata.DeriveError)
    | ValidationError
    | MissingRef                    // an operation on a record whose ref is None
    | StoreError(storeMessage: Option<string>)
    | DatabaseError(message: string)
    | MissingAttribute(name: string)  // reading a field removed with `del`
}

=== FILE: registry.dfy ===
/** Subclass discovery (`get_subclasses` in MagicModel.py): the classes
    reachable from a class through one or more "is a direct subclass of"
    edges, collected without duplicates. The class hierarchy is a finite
    graph from class name to the names of its direct subclasses. */
module Registry {

  type Graph = map<string, set<string>>

  /** `cls.__subclasses__()`. */
  function Children(g: Graph, c: string): set<string> {
    if c in g then g[c] else {}
  }

  /** Every class the graph mentions. */
  function Nodes(g: Graph): set<string> {
    g.Keys + (set k, x | k in g && x in g[k] :: x)
  }

  /** `s` contains the direct subclasses of each of its members. */
  ghost predicate Closed(g: Graph, s: set<string>) {
    forall x :: x in s ==> Children(g, x) <= s
  }

  /** `get_subclasses`: the smallest set that holds the direct subclasses
      of `c` and is closed under taking direct subclasses, i.e. every
      transitive subclass of `c` and nothing else. */
  method GetSubclasses(g: Graph, c: string) returns (subs: set<string>)
    ensures Children(g, c) <= subs
    ensures Closed(g, subs)
    ensures forall s :: Closed(g, s) && Children(g, c) <= s ==> subs <= s
  {
    subs := {};
    var todo := Children(g, c);
    while todo != {}
      invariant subs <= Nodes(g) && todo <= Nodes(g)
      invariant subs !! todo
      invariant Children(g, c) <= subs + todo
      invariant forall x :: x in subs ==> Children(g, x) <= subs + todo
      invariant forall s :: Closed(g, s) && Children(g, c) <= s ==> subs + todo <= s
      decreases Nodes(g) - subs
    {
      var x :| x in todo;
      subs := subs + {x};
      todo := (todo - {x}) + (Children(g, x) - subs);
    }
  }

  /** `get_all_subclasses_of_model`: the same closure from the base class. */
  method GetAllSubclassesOfModel(g: Graph) returns (subs: set<string>)
    ensures Children(g, "MagicModel") <= subs
    ensures Closed(g, subs)
    ensures forall s :: Closed(g, s) && Children(g, "MagicModel") <= s ==> subs <= s
  {
    subs := GetSubclasses(g, "MagicModel");
  }
}

=== FILE: stamps.dfy ===
/** The field assignments `DateModel.save` and `DateModel.update` make
    before delegating to `MagicModel` (DateModel.py). The clock reading
    `utcnow()` is the parameter `now`; a caller-supplied datetime is always
    truthy, so `x or utcnow()` is `x.GetOr(now)`. */
module Stamps {
  import opened Wrappers
  import opened Records

  const CreatedAt: string := "created_at"
  const LastUpdated: string := "last_updated"

  /** `DateModel.save` before `super().save`: `created_at` only when unset,
      `last_updated` always; no other field changes. Reading `created_at`
      needs the field to exist (a deleted one raises, see `DateSave`). */
  function StampSave(fields: Kwargs, createdAt: Option<int>, lastUpdated: Option<int>, now: int): (f: Kwargs)
    requires CreatedAt in fields
    ensures f.Keys == fields.Keys + {LastUpdated}
    ensures f[LastUpdated] == VTime(lastUpdated.GetOr(now))
    ensures FieldSet(fields, CreatedAt) ==> f[CreatedAt] == fields[CreatedAt]
    ensures !FieldSet(fields, CreatedAt) ==> f[CreatedAt] == VTime(createdAt.GetOr(now))
    ensures FieldSet(f, CreatedAt) && FieldSet(f, LastUpdated)
    ensures forall k :: k in fields && k != CreatedAt && k != LastUpdated ==> f[k] == fields[k]
  {
    var f := if FieldSet(fields, CreatedAt) then fields else fields[CreatedAt := VTime(createdAt.GetOr(now))];
    f[LastUpdated := VTime(lastUpdated.GetOr(now))]
  }

  /** `DateModel.update` before `super().update`: `last_updated` only;
      `created_at` and every other field keep their values. */
  function StampUpdate(fields: Kwargs, lastUpdated: Option<int>, now: int): (f: Kwargs)
    ensures f.Keys == fields.Keys + {LastUpdated}
    ensures f[LastUpdated] == VTime(lastUpdated.GetOr(now))
    ensures forall k :: k in fields && k != LastUpdated ==> f[k] == fields[k]
  {
    fields[LastUpdated := VTime(lastUpdated.GetOr(now))]
  }
}

=== FILE: text.dfy ===
/** String helpers the source gets from Python's `str`: `lower()` and the
    substring test `p in s`. Lowering is modelled for ASCII letters only. */
module Text {

  predicate IsUpper(c: char) {
    'A' <= c <= 'Z'
  }

  function LowerChar(c: char): char {
    if IsUpper(c) then (c as int + 32) as char else c
  }

  /** `s.lower()`: same length, every upper-case letter replaced by its
      lower-case partner, every other character kept. */
  function Lower(s: string): (r: string)
    ensures |r| == |s|
    ensures forall i :: 0 <= i < |s| ==> !IsUpper(r[i])
    ensures forall i :: 0 <= i < |s| && !IsUpper(s[i]) ==> r[i] == s[i]
    ensures forall i :: 0 <= i < |s| && IsUpper(s[i]) ==> r[i] as int == s[i] as int + 32
  {
    if |s| == 0 then "" else [LowerChar(s[0])] + Lower(s[1..])
  }

  /** Lowering twice is lowering once. */
  lemma LowerIdempotent(s: string)
    ensures Lower(Lower(s)) == Lower(s)
  {
    var once := Lower(s);
    var twice := Lower(once);
    assert forall i :: 0 <= i < |s| ==> twice[i] == once[i];
  }

  /** `p` occurs in `s` starting at index `i`. */
  predicate OccursAt(s: string, p: string, i: nat) {
    i + |p| <= |s| && s[i..i + |p|] == p
  }

  /** Python's `p in s` for strings. */
  predicate Contains(s: string, p: string) {
    exists i: nat :: i <= |s| && OccursAt(s, p, i)
  }

  /** A string embedded between two others is contained in the whole. */
  lemma ContainsMiddle(a: string, p: string, b: string)
    ensures Contains(a + p + b, p)
  {
    var s := a + p + b;
    assert s[|a|..|a| + |p|] == p;
    assert OccursAt(s, p, |a|);
  }
}

=== FILE: wrappers.dfy ===
/** Failure-compatible wrappers used throughout the model: `Option` for a
    Python value that may be `None`, `Result` for a call that may raise. */
module Wrappers {

  datatype Option<+T> = None | Some(value: T) {

    /** The wrapped value, or `default` when this is `None`. */
    function GetOr(default: T): T {
      match this
      case Some(v) => v
      case None => default
    }
  }

  datatype Result<+R, +E> = Success(value: R) | Failure(error: E)
}
